=== FILE: README.md ===
# Time picker stepping engine

A Dafny model of the integer core of `NgxMatTimepickerComponent`, the
Angular Material time picker of `@angular-material-components/datetime-picker`.
The component shows an hour, a minute and (optionally) a second field, with
spinner buttons, touch swipes and, on a 12-hour dial, an AM/PM toggle. Behind
that UI sits a small engine that is pure integer arithmetic:

- `_getNextValue` applies `stepCount` steps of size `step` to a value; with
  `roundToStep` on, an off-grid value is first snapped to the step grid and
  the snap counts as one step (`Stepper.NextValue`);
- `_normalizeValue` wraps a raw value into the field's range using
  JavaScript's truncating `%`, and on a 12-hour dial shows 0 as the meridian
  hour (`Stepper.NormalizeRange`, `Stepper.NormalizeValue`);
- `_getNextValueByProp` (spinner buttons, the meridian toggle) and
  `_getValueByTouchPos` (swipes) combine the two
  (`Stepper.NextValueByProp`, `Stepper.ValueByTouchPos`);
- the hour conversion between the date model's 24-hour hour and the 1–12
  dial hour plus AM/PM, in `_updateHourMinuteSecond` and `_updateModel`
  (`MeridianHours.ToDisplay`, `MeridianHours.ToModel`, and on whole forms
  `Timepicker.Load`, `Timepicker.Commit`);
- the user actions: `change`, `toggleMeridian`, and a touch swipe, each of
  which sets a form field and, through `_changeTime`, writes the whole form
  to the date model at once (`Timepicker.ChangeTime`, `Timepicker.Change`,
  `Timepicker.ToggleMeridian`, `Timepicker.TouchSwipe`), and the swipe
  sensitivity clamp (`Timepicker.ClampSensitivity`).

Modules:

- `JsArith` (`js_arith.dfy`): JavaScript's truncating remainder `JsRem`,
  `Math.ceil` of a quotient `CeilDiv`, and the congruence facts the proofs
  use. Dafny's own `%` is Euclidean, so every `%` of the source goes through
  `JsRem`.
- `TimeFields` (`time_fields.dfy`): `Field = Hour | Minute | Second`,
  `Meridian = AM | PM`, the per-field `Limits` and `Steps` tables that
  replace the source's string-built property names (`step${keyProp}`,
  `min${keyProp}`, `max${keyProp}`), and the `Config` of component inputs.
- `Stepper` (`stepper.dfy`): stepping, normalisation, the two entry points
  and their properties.
- `MeridianHours` (`meridian.dfy`): 24-hour ⇄ 12-hour hour conversion.
- `Timepicker` (`timepicker.dfy`): the component state `Picker` (the form
  and the date model's time) and the user actions on it.
- `Scenarios` (`scenarios.dfy`): worked edge cases under the conventional
  limits (hours wrap at 24, minutes and seconds at 60, 12 hours per half
  day).

The range limits (`LIMIT_TIMES`) live in `utils/date-utils`, which is not
part of this model; they are parameters here. `Limits.Valid` asks what the
engine relies on: every field starts at 0 and has a positive period, and the
meridian is positive. Per field the range is `[0, max)`, or `[1, meridian]`
for the hour on a 12-hour dial (`Config.InRange`).

Notes on reading the source:

- `_getNextValue` with `roundToStep` on and a step of 0 computes `NaN` for a
  non-zero step count; the model asks for a non-zero step in exactly that
  case (`Config.CanStep`) and tests `stepCount != 0` before taking the
  remainder, which gives the same integer results wherever the source gives
  an integer.
- Stepping down snaps by subtracting the truncating remainder, so the snap
  goes toward zero. For the non-negative values the form can hold this is
  "down to the previous multiple"; for a negative value it goes up
  (`Stepper.NegativeValueSnapsUpward`: from -3 with step 5, one step down
  gives 0). Every monotonicity and snapping property is therefore stated
  for `value >= 0`.
- The wrap-down in `_normalizeValue` (`value > max ? ...`) can never fire,
  because the remainder is already below `max` (`Stepper.WrapDownNeverFires`).
  A single remainder plus the wrap-up handles inputs of any size, so a long
  swipe that crosses the range several times still lands in range.
- The meridian toggle normalises the hour without stepping (`up` absent),
  which is the same as a zero-step swipe.

## Model

| member | source | states |
|---|---|---|
| JsArith.JsRem | projects/datetime-picker/src/lib/timepicker.component.ts:244-266 | JavaScript's `%` as used at lines 244, 249 and 266: the remainder is congruent to the dividend modulo the divisor, smaller than the divisor in magnitude, and has the dividend's sign |
| JsArith.JsRemMatchesEuclid | projects/datetime-picker/src/lib/timepicker.component.ts:266-268 | for a positive divisor the truncating remainder equals the Euclidean one, except on a negative non-multiple where it is one divisor lower |
| JsArith.CeilDiv | projects/datetime-picker/src/lib/timepicker.component.ts:246 | `Math.ceil(a / b)`: the least integer at or above the rational quotient, for either sign of divisor |
| Stepper.NextValue | projects/datetime-picker/src/lib/timepicker.component.ts:243-254 | a zero step count returns the value unchanged even with rounding on; without rounding, or on the grid, the result is `value + step * stepCount` |
| Stepper.SnapLandsOnStep | projects/datetime-picker/src/lib/timepicker.component.ts:244-253 | for a non-negative value off the grid, with rounding on and a non-zero count, the result is a multiple of the step: `stepCount` boundaries above the floor boundary going up, `|stepCount| - 1` below it going down |
| Stepper.SnapUpIsCeiling | projects/datetime-picker/src/lib/timepicker.component.ts:244-247 | for a non-negative value, one step up from off the grid gives the smallest multiple of the step above it |
| Stepper.SnapDownIsFloor | projects/datetime-picker/src/lib/timepicker.component.ts:248-250 | for a non-negative value, one step down from off the grid gives `value - value % step`, the largest multiple below it |
| Stepper.NextValueStepUp | projects/datetime-picker/src/lib/timepicker.component.ts:243-254 | one more step always gives a larger result, for a positive step and (with rounding) a non-negative value |
| Stepper.NextValueStrictlyIncreasing | projects/datetime-picker/src/lib/timepicker.component.ts:243-254 | for a positive step and (with rounding) a non-negative value, the result is strictly increasing in the step count, the snap consuming exactly one unit either way |
| Stepper.NegativeValueSnapsUpward | projects/datetime-picker/src/lib/timepicker.component.ts:248-250 | from -3 with step 5, a step down and a step up both give 0, above the zero-step result -3 |
| Stepper.NormalizeRange | projects/datetime-picker/src/lib/timepicker.component.ts:266-272 | with minimum 0 the wrap equals the Euclidean residue modulo the period, with 0 shown as the period on a 12-hour dial, for every integer input |
| Stepper.WrapDownNeverFires | projects/datetime-picker/src/lib/timepicker.component.ts:266-267 | after the remainder the value is below `max`, so dropping the wrap-down branch changes nothing |
| Stepper.NormalizeValue | projects/datetime-picker/src/lib/timepicker.component.ts:257-275 | the result is in the field's range, congruent to the input modulo the field's period, and equal to the input when that was already in range |
| Stepper.NormalizeIsEuclideanMod | projects/datetime-picker/src/lib/timepicker.component.ts:266-268 | off the 12-hour dial the result is `v mod max` and lies in `[0, max)` |
| Stepper.NormalizeMeridianZero | projects/datetime-picker/src/lib/timepicker.component.ts:262-272 | on the 12-hour dial every multiple of the meridian, 0 included, shows as the meridian |
| Stepper.NormalizeSameIffCongruent | projects/datetime-picker/src/lib/timepicker.component.ts:257-275 | two inputs normalise to the same value if and only if they differ by a multiple of the period |
| Stepper.NormalizeIdempotent | projects/datetime-picker/src/lib/timepicker.component.ts:257-275 | normalising twice equals normalising once |
| Stepper.NormalizePeriodic | projects/datetime-picker/src/lib/timepicker.component.ts:257-275 | adding any whole number of periods, of either sign, leaves the result unchanged |
| Stepper.NextValueByProp | projects/datetime-picker/src/lib/timepicker.component.ts:282-290 | the result is in range; with no direction it is the normalised current value; without rounding it is one step up or down modulo the period |
| Stepper.ValueByTouchPos | projects/datetime-picker/src/lib/timepicker.component.ts:295-301 | the result is in range; zero steps give the normalised initial value; without rounding it is `stepCount` steps from the initial value modulo the period |
| Stepper.SwipeMatchesButtons | projects/datetime-picker/src/lib/timepicker.component.ts:282-301 | a swipe of +1, -1 or 0 steps gives what the up button, the down button and a bare normalisation give |
| Stepper.SwipeSnapsToGrid | projects/datetime-picker/src/lib/timepicker.component.ts:243-254 | with rounding on, a swipe of k steps from a non-negative off-grid value lands, modulo the period, k step boundaries above the one at or below the value for positive k and abs(k) - 1 below it for negative k |
| Stepper.ButtonsAreInverse | projects/datetime-picker/src/lib/timepicker.component.ts:282-290 | without rounding, up then down (or down then up) returns any in-range value to itself |
| Stepper.SwipesCompose | projects/datetime-picker/src/lib/timepicker.component.ts:295-301 | without rounding, a swipe of `k1` steps then one of `k2` from its result equals one swipe of `k1 + k2` |
| MeridianHours.ToDisplay | projects/datetime-picker/src/lib/timepicker.component.ts:209-219 | on the 12-hour dial the meridian is AM exactly for hours below the meridian, the dial hour is congruent to the model hour modulo half a day, and an hour of the day shows in `[1, meridian]` (so 0 and 12 show as 12); otherwise the hour and shown meridian pass through |
| MeridianHours.ToModel | projects/datetime-picker/src/lib/timepicker.component.ts:229-235 | on the 12-hour dial a dial hour maps into the first half day for AM and the second for PM, congruent to the dial hour modulo half a day (so 12 AM is 0 and 12 PM is 12); otherwise the hour passes through |
| MeridianHours.DisplayHourIsResidue | projects/datetime-picker/src/lib/timepicker.component.ts:209-219 | every hour of the day shows as its residue modulo half a day, with 0 shown as the meridian |
| MeridianHours.ModelDisplayRoundTrip | projects/datetime-picker/src/lib/timepicker.component.ts:209-235 | every hour of the day shown on the dial and written back is the same hour |
| MeridianHours.DisplayModelRoundTrip | projects/datetime-picker/src/lib/timepicker.component.ts:209-235 | every dial hour and meridian written to the model and read back is the same dial hour and meridian |
| MeridianHours.PlainHourPassesThrough | projects/datetime-picker/src/lib/timepicker.component.ts:209-235 | without the 12-hour dial both conversions leave the hour unchanged |
| MeridianHours.FlipMovesHalfADay | projects/datetime-picker/src/lib/timepicker.component.ts:229-235 | flipping AM/PM of a dial hour moves the model hour by half a day modulo a full day |
| Timepicker.Load | projects/datetime-picker/src/lib/timepicker.component.ts:204-224 | minute and second are copied; without the dial the hour and shown meridian are kept; on the dial the form shows AM exactly for hours before noon, its hour is congruent to the model hour modulo half a day, and an hour of the day lands in range |
| Timepicker.Commit | projects/datetime-picker/src/lib/timepicker.component.ts:227-241 | minute and second are copied; without the dial the hour is copied; on the dial the model hour is congruent to the form's hour modulo half a day and, for a dial hour in range, lies in the first half day exactly when the form shows AM; an in-range form commits an hour of the day |
| Timepicker.CommitLoadRoundTrip | projects/datetime-picker/src/lib/timepicker.component.ts:204-241 | loading a model time of day and committing again writes back the same time |
| Timepicker.LoadCommitRoundTrip | projects/datetime-picker/src/lib/timepicker.component.ts:204-241 | committing a form whose hour is on the dial and loading again gives the same form, meridian included |
| Timepicker.ChangeTime | projects/datetime-picker/src/lib/timepicker.component.ts:197-201 | only the chosen field of the form changes, to the given value, and the date model then holds the committed form |
| Timepicker.Change | projects/datetime-picker/src/lib/timepicker.component.ts:157-160 | only the chosen field changes, it ends in range and takes the value of the spinner step for its current value (snapped when rounding is on); without rounding a button moves it one step in its direction modulo the period; a bare normalisation of an in-range field leaves the form alone; the date model holds the committed form |
| Timepicker.ChangeButtonsAreInverse | projects/datetime-picker/src/lib/timepicker.component.ts:157-160 | without rounding, up then down (or down then up) restores a form whose field is in range, and the date model then holds that form's time |
| Timepicker.ToggleMeridian | projects/datetime-picker/src/lib/timepicker.component.ts:151-154 | the meridian changes, the hour ends in range and keeps its value when it was in range, minute and second are untouched, and the date model holds the committed form |
| Timepicker.ToggleTwice | projects/datetime-picker/src/lib/timepicker.component.ts:151-154 | toggling twice restores a form whose hour is in range, and the date model then holds that form's time |
| Timepicker.ToggleMovesHalfADay | projects/datetime-picker/src/lib/timepicker.component.ts:151-154 | on the dial a toggle moves the hour written to the date model by half a day modulo a full day |
| Timepicker.ClampSensitivity | projects/datetime-picker/src/lib/timepicker.component.ts:171 | the sensitivity lies in `[5, 50]`, is unchanged inside it and saturates at either end |
| Timepicker.TouchSwipe | projects/datetime-picker/src/lib/timepicker.component.ts:162-194 | a touch with other than one finger changes nothing; otherwise the last move sample alone decides the field, measured from the value at touch start, and the date model holds the committed form |
| Scenarios.SpinnerEdgeCases | projects/datetime-picker/src/lib/timepicker.component.ts:282-290 | 23 up is 0, minute 0 down is 59, dial hour 12 up is 1 and 1 down is 12, minute 7 on a 5-grid goes up to 10 and down to 5, 58 up wraps to 0 |
| Scenarios.SwipeMultiWrap | projects/datetime-picker/src/lib/timepicker.component.ts:295-301 | swipes that cross the range several times in either direction still land on the right value |
| Scenarios.RoundedSwipes | projects/datetime-picker/src/lib/timepicker.component.ts:243-254 | with a five-step grid, minute 7 swiped 2, -2 and 3 steps gives 15, 0 and 20; hour 7 swiped 2 steps gives 15, and hour 22 swiped 1 step wraps to 1 |
| Scenarios.MeridianEdgeCases | projects/datetime-picker/src/lib/timepicker.component.ts:209-235 | hour 0 shows as 12 AM, 12 as 12 PM, 13 as 1 PM, 23 as 11 PM; 12 AM writes back as 0, 12 PM as 12, 1 PM as 13 |

## Left out

- Angular wiring: the form group and its validators, the value-accessor
  callbacks (including the `_onChange` notification after each write to
  the date model), change detection, the lifecycle hooks and the debounced
  subscription that commits after edits (component framework and event
  timing, not arithmetic).
- Touch-listener registration and removal on the window and the target:
  browser event plumbing. `Timepicker.TouchSwipe` takes the touch's finger
  count and the sequence of step counts of its move samples.
- The `swipeSensitivity` input: it only feeds the pixel-to-step conversion
  below, so it is not part of `Config`; its clamp is `Timepicker.ClampSensitivity`.
- The step count of a move sample, `Math.trunc(-deltaY / pixelsPerStep)`,
  and the `devicePixelRatio` scaling: floating-point arithmetic on device
  state. Step counts enter the model as integers.
- The date adapter (`today`, `get/setHour`, `get/setMinute`, `get/setSecond`,
  `setTimeByDefaultValues`) and the error thrown when it is missing: foreign
  code. The date model's time is the `Clock` datatype.
- `formatTwoDigitTimeValue`, the input patterns, `NUMERIC_REGEX` and
  `formatInput`, and the `Number(...)`/`isNaN` getters: string formatting and
  coercion of form text; form fields are integers here.
- The actual values of `LIMIT_TIMES` and `DEFAULT_STEP`: they are defined
  outside this file and are parameters of the model.
- JavaScript numbers are doubles; the model uses unbounded integers, so
  values beyond 2^53 and the sign of a `-0` remainder are not modelled
  (a `-0` compares equal to 0 everywhere the engine uses it).
- Stepper.NextValue: leaves out the `NaN` result of rounding with a step of
  0 and a non-zero step count, by requiring a non-zero step in that case.

=== FILE: js_arith.dfy ===
/** Integer arithmetic as JavaScript performs it on integral numbers.

    Dafny's `/` and `%` are Euclidean (the remainder is never negative),
    whereas JavaScript's `%` truncates toward zero, so its remainder takes
    the sign of the dividend. `Math.ceil(a / b)` is written out as well.
 */
module JsArith {

  function Abs(x: int): (r: nat)
    ensures r == x || r == -x
  {
    if x < 0 then -x else x
  }

  /** The Euclidean quotient and remainder are the only pair that
      reconstructs `a` with a remainder in `[0, |b|)`. */
  lemma ModUnique(a: int, b: int, q: int, r: int)
    requires b != 0
    requires a == b * q + r
    requires 0 <= r < Abs(b)
    ensures a / b == q && a % b == r
  {
    var q0, r0 := a / b, a % b;
    assert a == b * q0 + r0;
    assert b * (q - q0) == r0 - r by {
      assert b * (q - q0) == b * q - b * q0;
    }
    if q != q0 {
      MulMagnitude(b, q - q0);
      assert false;
    }
  }

  /** A non-zero multiple of `b` is at least `|b|` away from zero. */
  lemma MulMagnitude(b: int, d: int)
    requires d != 0
    ensures Abs(b * d) >= Abs(b)
  {
    var x, y := Abs(b), Abs(d);
    assert Abs(b * d) == x * y by {
      if b < 0 && d < 0 { assert b * d == (-b) * (-d); }
      else if b < 0 { assert b * d == -((-b) * d); }
      else if d < 0 { assert b * d == -(b * (-d)); }
    }
    NatMulAtLeast(x, y);
  }

  lemma {:induction false} NatMulAtLeast(x: nat, y: nat)
    requires y >= 1
    ensures x * y >= x
    decreases y
  {
    if y > 1 {
      NatMulAtLeast(x, y - 1);
      assert x * y == x * (y - 1) + x;
    }
  }

  /** Every multiple of `|b|` leaves remainder 0 when divided by `b`. */
  lemma MultipleOfAbs(b: int, k: int)
    requires b != 0
    ensures (Abs(b) * k) % b == 0
  {
    if b > 0 {
      ModUnique(b * k, b, k, 0);
    } else {
      assert Abs(b) * k == b * (-k);
      ModUnique(b * (-k), b, -k, 0);
    }
  }

  /** JavaScript's `a % b` on integers: the remainder is congruent to `a`
      modulo `b`, smaller than `|b|` in magnitude, and carries the sign of
      the dividend. */
  function JsRem(a: int, b: int): (r: int)
    requires b != 0
    ensures Abs(r) < Abs(b)
    ensures a >= 0 ==> r >= 0
    ensures a <= 0 ==> r <= 0
    ensures (a - r) % b == 0
  {
    JsRemCongruent(a, b);
    if a >= 0 then a % Abs(b) else -((-a) % Abs(b))
  }

  lemma JsRemCongruent(a: int, b: int)
    requires b != 0
    ensures a >= 0 ==> (a - a % Abs(b)) % b == 0
    ensures a < 0 ==> (a + (-a) % Abs(b)) % b == 0
  {
    var m := Abs(b);
    if a >= 0 {
      var q := a / m;
      assert a == m * q + a % m;
      assert a - a % m == m * q;
      MultipleOfAbs(b, q);
    } else {
      var q := (-a) / m;
      assert -a == m * q + (-a) % m;
      assert a + (-a) % m == m * -q;
      MultipleOfAbs(b, -q);
    }
  }

  /** For a positive divisor the JavaScript remainder agrees with the
      Euclidean one, except on a negative dividend that is not a multiple,
      where it is exactly one divisor lower. */
  lemma JsRemMatchesEuclid(a: int, b: int)
    requires b > 0
    ensures a >= 0 || a % b == 0 ==> JsRem(a, b) == a % b
    ensures a < 0 && a % b != 0 ==> JsRem(a, b) == a % b - b
  {
    assert Abs(b) == b;
    if a < 0 {
      var q, t := (-a) / b, (-a) % b;
      assert JsRem(a, b) == -t;
      assert -a == b * q + t;
      if t == 0 {
        assert a == b * (-q) + 0;
        ModUnique(a, b, -q, 0);
      } else {
        assert a == b * (-q - 1) + (b - t) by {
          assert b * (-q - 1) == -(b * q) - b;
        }
        ModUnique(a, b, -q - 1, b - t);
      }
    }
  }

  /** `Math.ceil(a / b)` for integers: the least `q` with `q >= a / b`
      read over the rationals. */
  function CeilDiv(a: int, b: int): (q: int)
    requires b != 0
    ensures b > 0 ==> b * (q - 1) < a <= b * q
    ensures b < 0 ==> b * q <= a < b * (q - 1)
  {
    if b > 0 then
      var f := (-a) / b;
      assert -a == b * f + (-a) % b;
      assert b * (-f - 1) == -(b * f) - b;
      -f
    else
      var f := a / (-b);
      assert a == (-b) * f + a % (-b);
      assert b * (-f) == (-b) * f;
      assert b * (-f - 1) == (-b) * f + (-b);
      -f
  }

  /** The sum of two multiples of `p` is a multiple of `p`. */
  lemma MultipleSum(x: int, y: int, p: int)
    requires p > 0
    requires x % p == 0 && y % p == 0
    ensures (x + y) % p == 0
  {
    assert x + y == p * (x / p + y / p) + 0 by {
      assert x == p * (x / p) && y == p * (y / p);
      assert p * (x / p + y / p) == p * (x / p) + p * (y / p);
    }
    ModUnique(x + y, p, x / p + y / p, 0);
  }

  /** The negation of a multiple of `p` is a multiple of `p`. */
  lemma MultipleNeg(x: int, p: int)
    requires p > 0
    requires x % p == 0
    ensures (-x) % p == 0
  {
    assert -x == p * -(x / p) + 0 by {
      assert x == p * (x / p);
    }
    ModUnique(-x, p, -(x / p), 0);
  }

  /** Two values in one window of `p` consecutive integers that differ by a
      multiple of `p` are equal. */
  lemma WindowUnique(x: int, y: int, lo: int, p: int)
    requires p > 0
    requires lo <= x < lo + p && lo <= y < lo + p
    requires (x - y) % p == 0
    ensures x == y
  {
    var k := (x - y) / p;
    assert x - y == p * k;
    if k != 0 {
      MulMagnitude(p, k);
      assert false;
    }
  }
}

=== FILE: meridian.dfy ===
/** Conversion between the 24-hour hour held by the date model and the hour
    the picker shows, which on a 12-hour dial is a value in
    `[1, meridian]` plus AM or PM. `meridian` is the number of hours in
    half a day.
 */
module MeridianHours {
  import opened TimeFields
  import JsArith
  import Stepper

  /** The hour shown in the hour field together with the meridian shown
      beside it. */
  datatype HourDisplay = HourDisplay(hour: int, meridian: Meridian)

  function Flip(m: Meridian): (r: Meridian)
    ensures r != m
  {
    if m == AM then PM else AM
  }

  /** Zero and plus or minus half a day are whole multiples of half a
      day. */
  lemma HalfDayMultiples(meridian: int)
    requires meridian > 0
    ensures 0 % meridian == 0 && meridian % meridian == 0 && (-meridian) % meridian == 0
  {
    JsArith.ModUnique(0, meridian, 0, 0);
    JsArith.ModUnique(meridian, meridian, 1, 0);
    JsArith.ModUnique(-meridian, meridian, -1, 0);
  }

  /** The hour half of `_updateHourMinuteSecond`: a model hour read into
      the hour field. Without the 12-hour dial the hour passes through and
      the meridian shown stays `current`. */
  function ToDisplay(h: int, meridian: int, enableMeridian: bool, current: Meridian): (d: HourDisplay)
    requires meridian > 0
    ensures !enableMeridian ==> d == HourDisplay(h, current)
    ensures enableMeridian ==> (d.meridian == AM <==> h < meridian)
    ensures enableMeridian && 0 <= h < 2 * meridian ==> 1 <= d.hour <= meridian
    ensures enableMeridian ==> (d.hour - h) % meridian == 0
  {
    HalfDayMultiples(meridian);
    if !enableMeridian then HourDisplay(h, current)
    else
      var shown := if h < meridian then HourDisplay(h, AM) else HourDisplay(h - meridian, PM);
      if shown.hour == 0 then shown.(hour := meridian) else shown
  }

  /** The hour half of `_updateModel`: the hour field and meridian written
      back as a model hour. Without the 12-hour dial the hour passes
      through. */
  function ToModel(d: HourDisplay, meridian: int, enableMeridian: bool): (h: int)
    requires meridian > 0
    ensures !enableMeridian ==> h == d.hour
    ensures enableMeridian && 1 <= d.hour <= meridian ==>
      && (d.meridian == AM <==> 0 <= h < meridian)
      && (d.meridian == PM <==> meridian <= h < 2 * meridian)
    ensures enableMeridian ==> (h - d.hour) % meridian == 0
  {
    HalfDayMultiples(meridian);
    if !enableMeridian then d.hour
    else if d.meridian == AM && d.hour == meridian then 0
    else if d.meridian == PM && d.hour != meridian then d.hour + meridian
    else
      assert d.meridian == AM <==> d.hour != meridian;
      d.hour
  }

  /** Reading a model hour of the day into the 12-hour dial and writing it
      back returns the same hour. */
  lemma ModelDisplayRoundTrip(h: int, meridian: int, current: Meridian)
    requires meridian > 0 && 0 <= h < 2 * meridian
    ensures ToModel(ToDisplay(h, meridian, true, current), meridian, true) == h
  {
  }

  /** On the 12-hour dial an hour of the day shows as its residue modulo
      half a day, with 0 and 12 o'clock both shown as the meridian. */
  lemma DisplayHourIsResidue(h: int, meridian: int, current: Meridian)
    requires meridian > 0 && 0 <= h < 2 * meridian
    ensures ToDisplay(h, meridian, true, current).hour == Stepper.Residue(h, meridian, true)
  {
    if h < meridian {
      JsArith.ModUnique(h, meridian, 0, h);
    } else {
      JsArith.ModUnique(h, meridian, 1, h - meridian);
    }
  }

  /** Writing a dial hour and meridian to the model and reading it back
      returns the same dial hour and meridian, whatever was shown before. */
  lemma DisplayModelRoundTrip(d: HourDisplay, meridian: int, current: Meridian)
    requires meridian > 0 && 1 <= d.hour <= meridian
    ensures ToDisplay(ToModel(d, meridian, true), meridian, true, current) == d
  {
  }

  /** Without the 12-hour dial both directions are the identity on the
      hour. */
  lemma PlainHourPassesThrough(h: int, meridian: int, current: Meridian)
    requires meridian > 0
    ensures ToModel(ToDisplay(h, meridian, false, current), meridian, false) == h
    ensures ToDisplay(ToModel(HourDisplay(h, current), meridian, false), meridian, false, current) == HourDisplay(h, current)
  {
  }

  /** Flipping the meridian of a dial hour moves the model hour by half a
      day, around the clock. */
  lemma FlipMovesHalfADay(d: HourDisplay, meridian: int)
    requires meridian > 0 && 1 <= d.hour <= meridian
    ensures ToModel(d.(meridian := Flip(d.meridian)), meridian, true)
      == (ToModel(d, meridian, true) + meridian) % (2 * meridian)
  {
    var h := ToModel(d, meridian, true);
    var h' := ToModel(d.(meridian := Flip(d.meridian)), meridian, true);
    if d.meridian == AM {
      JsArith.ModUnique(h + meridian, 2 * meridian, 0, h');
    } else {
      JsArith.ModUnique(h + meridian, 2 * meridian, 1, h');
    }
  }
}

=== FILE: scenarios.dfy ===
/** Worked cases of the stepping engine under the conventional clock
    limits: hours wrap at 24, minutes and seconds at 60, and half a day
    has 12 hours.
 */
module Scenarios {
  import opened TimeFields
  import opened Stepper
  import MeridianHours

  const Clock24: Limits := Limits(0, 24, 0, 60, 0, 60, 12)

  function Settings(step: int, roundToStep: bool, enableMeridian: bool): (c: Config)
    ensures c.limits.Valid()
  {
    Config(Steps(step, step, step), roundToStep, enableMeridian, Clock24)
  }

  /** Edge cases of the spinner buttons: wrapping past the last hour and
      below the first minute, the 12-hour dial passing 12, and rounding a
      minute onto a five-minute grid in either direction. */
  lemma SpinnerEdgeCases()
    ensures NextValueByProp(Settings(1, false, false), Hour, 23, Some(true)) == 0
    ensures NextValueByProp(Settings(1, false, false), Minute, 0, Some(false)) == 59
    ensures NextValueByProp(Settings(1, false, true), Hour, 12, Some(true)) == 1
    ensures NextValueByProp(Settings(1, false, true), Hour, 1, Some(false)) == 12
    ensures NextValueByProp(Settings(5, true, false), Minute, 7, Some(true)) == 10
    ensures NextValueByProp(Settings(5, true, false), Minute, 7, Some(false)) == 5
    ensures NextValueByProp(Settings(5, true, false), Minute, 58, Some(true)) == 0
  {
  }

  /** A long swipe wraps several times around the range, in both
      directions. */
  lemma SwipeMultiWrap()
    ensures ValueByTouchPos(Settings(1, false, false), Minute, 10, -130) == 0
    ensures ValueByTouchPos(Settings(1, false, true), Hour, 3, 33) == 12
    ensures ValueByTouchPos(Settings(1, false, true), Hour, 3, -27) == 12
  {
  }

  /** Rounded swipes: the first step of a multi-step swipe only snaps an
      off-grid minute to the five-minute grid, in either direction, and an
      hour snaps the same way. */
  lemma RoundedSwipes()
    ensures ValueByTouchPos(Settings(5, true, false), Minute, 7, 2) == 15
    ensures ValueByTouchPos(Settings(5, true, false), Minute, 7, -2) == 0
    ensures ValueByTouchPos(Settings(5, true, false), Minute, 7, 3) == 20
    ensures ValueByTouchPos(Settings(5, true, false), Hour, 7, 2) == 15
    ensures ValueByTouchPos(Settings(5, true, false), Hour, 22, 1) == 1
  {
  }

  /** The 12-hour dial at its edges: midnight and noon both show as 12,
      13 o'clock as 1 PM, and 12 AM is written back as hour 0. */
  lemma MeridianEdgeCases()
    ensures MeridianHours.ToDisplay(0, 12, true, PM) == MeridianHours.HourDisplay(12, AM)
    ensures MeridianHours.ToDisplay(12, 12, true, AM) == MeridianHours.HourDisplay(12, PM)
    ensures MeridianHours.ToDisplay(13, 12, true, AM) == MeridianHours.HourDisplay(1, PM)
    ensures MeridianHours.ToDisplay(23, 12, true, AM) == MeridianHours.HourDisplay(11, PM)
    ensures MeridianHours.ToModel(MeridianHours.HourDisplay(12, AM), 12, true) == 0
    ensures MeridianHours.ToModel(MeridianHours.HourDisplay(12, PM), 12, true) == 12
    ensures MeridianHours.ToModel(MeridianHours.HourDisplay(1, PM), 12, true) == 13
  {
  }
}

=== FILE: stepper.dfy ===
/** The stepping engine of the time picker: applying a number of steps to a
    field's value, with optional snapping to the step grid, and wrapping
    the result back into the field's range.
 */
module Stepper {
  import opened JsArith
  import opened TimeFields

  // ---------------------------------------------------------------------
  // Applying steps
  // ---------------------------------------------------------------------

  /** `stepCount` steps of size `step` applied to `value`. With
      `roundToStep` on and `value` off the step grid, the first step of a
      non-zero count only snaps `value` to the grid: up to the next
      boundary for a positive count, toward zero by the JavaScript
      remainder for a negative one. */
  function NextValue(value: int, step: int, stepCount: int, roundToStep: bool): (r: int)
    requires roundToStep && stepCount != 0 ==> step != 0
    ensures stepCount == 0 ==> r == value
    ensures !roundToStep ==> r == value + step * stepCount
    ensures step != 0 && JsRem(value, step) == 0 ==> r == value + step * stepCount
  {
    if roundToStep && stepCount != 0 && JsRem(value, step) != 0 then
      if stepCount > 0 then
        CeilDiv(value, step) * step + step * (stepCount - 1)
      else
        (value - JsRem(value, step)) + step * (stepCount + 1)
    else
      value + step * stepCount
  }

  /** Off the grid, the snap lands on a step boundary and every further
      step keeps it there: a positive count ends `stepCount` boundaries
      above the one at or below `value`, a negative count `|stepCount| - 1`
      boundaries below it. */
  lemma SnapLandsOnStep(value: int, step: int, stepCount: int)
    requires value >= 0 && step > 0 && value % step != 0 && stepCount != 0
    ensures stepCount > 0 ==> NextValue(value, step, stepCount, true) == step * (value / step + stepCount)
    ensures stepCount < 0 ==> NextValue(value, step, stepCount, true) == step * (value / step + stepCount + 1)
    ensures NextValue(value, step, stepCount, true) % step == 0
  {
    JsRemMatchesEuclid(value, step);
    var q := value / step;
    var t := value % step;
    assert value == step * q + t;
    var r := NextValue(value, step, stepCount, true);
    if stepCount > 0 {
      CeilingIsNextBoundary(value, step);
      assert r == step * (q + 1) + step * (stepCount - 1);
      assert r == step * (q + stepCount);
      ModUnique(r, step, q + stepCount, 0);
    } else {
      assert r == step * q + step * (stepCount + 1);
      assert r == step * (q + stepCount + 1);
      ModUnique(r, step, q + stepCount + 1, 0);
    }
  }

  /** `Math.ceil(value / step)` of an off-grid non-negative value is one
      more than the Euclidean quotient. */
  lemma CeilingIsNextBoundary(value: int, step: int)
    requires value >= 0 && step > 0 && value % step != 0
    ensures CeilDiv(value, step) == value / step + 1
  {
    var c := CeilDiv(value, step);
    var rest := value - step * (c - 1);
    assert 0 < rest <= step;
    if rest == step {
      assert value == step * c + 0 by {
        assert step * (c - 1) == step * c - step;
      }
      ModUnique(value, step, c, 0);
      assert false;
    }
    ModUnique(value, step, c - 1, rest);
  }

  /** One step up from an off-grid value reaches the smallest boundary
      above it. */
  lemma SnapUpIsCeiling(value: int, step: int)
    requires value >= 0 && step > 0 && value % step != 0
    ensures NextValue(value, step, 1, true) % step == 0
    ensures NextValue(value, step, 1, true) - step < value < NextValue(value, step, 1, true)
  {
    SnapLandsOnStep(value, step, 1);
    assert value == step * (value / step) + value % step;
    assert step * (value / step + 1) == step * (value / step) + step;
  }

  /** One step down from an off-grid value reaches the largest boundary
      below it, `value - value % step`. */
  lemma SnapDownIsFloor(value: int, step: int)
    requires value >= 0 && step > 0 && value % step != 0
    ensures NextValue(value, step, -1, true) == value - value % step
    ensures NextValue(value, step, -1, true) % step == 0
    ensures NextValue(value, step, -1, true) < value < NextValue(value, step, -1, true) + step
  {
    SnapLandsOnStep(value, step, -1);
    assert value == step * (value / step) + value % step;
  }

  /** Raising the step count by one always raises the result. */
  lemma NextValueStepUp(value: int, step: int, stepCount: int, roundToStep: bool)
    requires step > 0 && (roundToStep ==> value >= 0)
    ensures NextValue(value, step, stepCount, roundToStep) < NextValue(value, step, stepCount + 1, roundToStep)
  {
    var lo := NextValue(value, step, stepCount, roundToStep);
    var hi := NextValue(value, step, stepCount + 1, roundToStep);
    if roundToStep && value % step != 0 {
      JsRemMatchesEuclid(value, step);
      var q := value / step;
      assert value == step * q + value % step;
      if stepCount > 0 {
        SnapLandsOnStep(value, step, stepCount);
        SnapLandsOnStep(value, step, stepCount + 1);
        assert step * (q + stepCount + 1) == step * (q + stepCount) + step;
      } else if stepCount == 0 {
        SnapLandsOnStep(value, step, 1);
        assert step * (q + 1) == step * q + step;
      } else if stepCount == -1 {
        SnapLandsOnStep(value, step, -1);
      } else {
        SnapLandsOnStep(value, step, stepCount);
        SnapLandsOnStep(value, step, stepCount + 1);
        assert step * (q + stepCount + 2) == step * (q + stepCount + 1) + step;
      }
    } else {
      if roundToStep {
        JsRemMatchesEuclid(value, step);
      }
      assert step * (stepCount + 1) == step * stepCount + step;
    }
  }

  /** For a positive step, the result is strictly increasing in the step
      count, because the snap consumes exactly one unit in each
      direction. */
  lemma {:induction false} NextValueStrictlyIncreasing(value: int, step: int, k1: int, k2: int, roundToStep: bool)
    requires step > 0 && (roundToStep ==> value >= 0)
    requires k1 < k2
    ensures NextValue(value, step, k1, roundToStep) < NextValue(value, step, k2, roundToStep)
    decreases k2 - k1
  {
    NextValueStepUp(value, step, k2 - 1, roundToStep);
    if k1 < k2 - 1 {
      NextValueStrictlyIncreasing(value, step, k1, k2 - 1, roundToStep);
    }
  }

  /** A negative value is snapped toward zero by the truncating remainder,
      so stepping it down can raise it: the step count then no longer
      orders the results. */
  lemma NegativeValueSnapsUpward()
    ensures NextValue(-3, 5, -1, true) == 0
    ensures NextValue(-3, 5, 0, true) == -3
    ensures NextValue(-3, 5, 1, true) == 0
  {
  }

  // ---------------------------------------------------------------------
  // Normalising into the field's range
  // ---------------------------------------------------------------------

  /** The reference reading of a field value: its Euclidean residue modulo
      `period`, with 0 shown as `period` on a 12-hour dial. */
  function Residue(v: int, period: int, zeroAsPeriod: bool): int
    requires period > 0
  {
    if zeroAsPeriod && v % period == 0 then period else v % period
  }

  /** The wrap of `_normalizeValue` for range `[min, max)`: JavaScript
      remainder, a downward wrap, an upward wrap, and on a 12-hour dial the
      substitution of `max` for 0. With `min == 0` it is the Euclidean
      residue, whatever the sign or size of `value`. */
  function NormalizeRange(value: int, min: int, max: int, meridianHour: bool): (r: int)
    requires max > 0
    ensures min == 0 ==> r == Residue(value, max, meridianHour)
  {
    JsRemMatchesEuclid(value, max);
    var rem := JsRem(value, max);
    var wrappedDown := if rem > max then rem - max + min else rem;
    var wrappedUp := if wrappedDown < min then wrappedDown - min + max else wrappedDown;
    if meridianHour && wrappedUp == 0 then max else wrappedUp
  }

  /** The downward wrap never changes the value: after the remainder the
      value is already below `max`. */
  lemma WrapDownNeverFires(value: int, min: int, max: int, meridianHour: bool)
    requires max > 0
    ensures JsRem(value, max) < max
    ensures NormalizeRange(value, min, max, meridianHour) ==
      var rem := JsRem(value, max);
      var wrappedUp := if rem < min then rem - min + max else rem;
      if meridianHour && wrappedUp == 0 then max else wrappedUp
  {
  }

  /** The residue lies in the field's window, is congruent to its input
      and leaves an in-window input alone. */
  lemma ResidueFacts(v: int, p: int, zeroAsPeriod: bool)
    requires p > 0
    ensures var r := Residue(v, p, zeroAsPeriod);
      && (if zeroAsPeriod then 1 <= r <= p else 0 <= r < p)
      && (r - v) % p == 0
      && ((if zeroAsPeriod then 1 <= v <= p else 0 <= v < p) ==> r == v)
  {
    var r := Residue(v, p, zeroAsPeriod);
    var q := v / p;
    assert v == p * q + v % p;
    if zeroAsPeriod && v % p == 0 {
      assert r - v == p * (1 - q) + 0 by {
        assert p * (1 - q) == p - p * q;
      }
      ModUnique(r - v, p, 1 - q, 0);
    } else {
      assert r - v == p * (-q) + 0;
      ModUnique(r - v, p, -q, 0);
    }
    if 0 <= v < p {
      ModUnique(v, p, 0, v);
    } else if v == p {
      ModUnique(v, p, 1, 0);
    }
  }

  /** `_normalizeValue`: a raw value of field `f` brought into the field's
      range. The result is in range, congruent to the input modulo the
      field's period, and equal to the input when that was in range. */
  function NormalizeValue(c: Config, f: Field, value: int): (r: int)
    requires c.limits.Valid()
    ensures c.InRange(f, r)
    ensures c.InRange(f, value) ==> r == value
    ensures (r - value) % c.Period(f) == 0
  {
    ResidueFacts(value, c.Period(f), c.MeridianHour(f));
    NormalizeRange(value, c.limits.Min(f), c.Period(f), c.MeridianHour(f))
  }

  /** Without the 12-hour dial, normalising is the Euclidean `v mod max`. */
  lemma NormalizeIsEuclideanMod(c: Config, f: Field, v: int)
    requires c.limits.Valid() && !c.MeridianHour(f)
    ensures NormalizeValue(c, f, v) == v % c.limits.Max(f)
    ensures 0 <= NormalizeValue(c, f, v) < c.limits.Max(f)
  {
  }

  /** On the 12-hour dial every multiple of the meridian, 0 included,
      shows as the meridian itself. */
  lemma NormalizeMeridianZero(c: Config, v: int)
    requires c.limits.Valid() && c.enableMeridian
    requires v % c.limits.meridian == 0
    ensures NormalizeValue(c, Hour, v) == c.limits.meridian
  {
  }

  /** Two raw values normalise alike exactly when they differ by a whole
      number of periods. */
  lemma NormalizeSameIffCongruent(c: Config, f: Field, x: int, y: int)
    requires c.limits.Valid()
    ensures NormalizeValue(c, f, x) == NormalizeValue(c, f, y) <==> (x - y) % c.Period(f) == 0
  {
    var p := c.Period(f);
    var nx, ny := NormalizeValue(c, f, x), NormalizeValue(c, f, y);
    var lo := if c.MeridianHour(f) then 1 else 0;
    MultipleNeg(nx - x, p);
    if nx == ny {
      // x - y == (x - nx) + (ny - y)
      MultipleSum(-(nx - x), ny - y, p);
      assert x - y == -(nx - x) + (ny - y);
    } else {
      if (x - y) % p == 0 {
        MultipleSum(nx - x, x - y, p);
        MultipleNeg(ny - y, p);
        MultipleSum(nx - y, -(ny - y), p);
        assert nx - ny == (nx - y) + -(ny - y);
        WindowUnique(nx, ny, lo, p);
        assert false;
      }
    }
  }

  /** Normalising twice is normalising once. */
  lemma NormalizeIdempotent(c: Config, f: Field, v: int)
    requires c.limits.Valid()
    ensures NormalizeValue(c, f, NormalizeValue(c, f, v)) == NormalizeValue(c, f, v)
  {
  }

  /** Adding whole periods, any number and either sign, does not change the
      normalised value. */
  lemma NormalizePeriodic(c: Config, f: Field, v: int, k: int)
    requires c.limits.Valid()
    ensures NormalizeValue(c, f, v + k * c.Period(f)) == NormalizeValue(c, f, v)
  {
    var p := c.Period(f);
    var w := v + k * p;
    assert w - v == p * k;
    ModUnique(p * k, p, k, 0);
    NormalizeSameIffCongruent(c, f, w, v);
  }

  // ---------------------------------------------------------------------
  // The two entry points
  // ---------------------------------------------------------------------

  /** `_getNextValueByProp`: the value a spinner button gives field `f`.
      `up == None` normalises the current value without stepping; otherwise
      one step up or down is applied first. */
  function NextValueByProp(c: Config, f: Field, current: int, up: Option<bool>): (r: int)
    requires c.limits.Valid()
    requires up.Some? ==> c.CanStep(f, 1)
    ensures c.InRange(f, r)
    ensures up.None? ==> r == NormalizeValue(c, f, current)
    ensures up.Some? && !c.roundToStep ==>
      (r - current - (if up.value then c.steps.Of(f) else -c.steps.Of(f))) % c.Period(f) == 0
  {
    var next :=
      if up.None? then current
      else NextValue(current, c.steps.Of(f), if up.value then 1 else -1, c.roundToStep);
    NormalizeValue(c, f, next)
  }

  /** `_getValueByTouchPos`: the value a swipe of `stepCount` steps gives
      field `f`, always measured from the value at touch start. */
  function ValueByTouchPos(c: Config, f: Field, initial: int, stepCount: int): (r: int)
    requires c.limits.Valid()
    requires c.CanStep(f, stepCount)
    ensures c.InRange(f, r)
    ensures stepCount == 0 ==> r == NormalizeValue(c, f, initial)
    ensures !c.roundToStep ==> (r - initial - c.steps.Of(f) * stepCount) % c.Period(f) == 0
  {
    NormalizeValue(c, f, NextValue(initial, c.steps.Of(f), stepCount, c.roundToStep))
  }

  /** With rounding on, a swipe from a non-negative off-grid value lands on
      the step grid, modulo the period: `k` boundaries above the one at or
      below the value for a positive `k`, `|k| - 1` below it for a negative
      one. Through `SwipeMatchesButtons` this covers the buttons too. */
  lemma SwipeSnapsToGrid(c: Config, f: Field, v: int, k: int)
    requires c.limits.Valid() && c.roundToStep
    requires v >= 0 && c.steps.Of(f) > 0 && v % c.steps.Of(f) != 0 && k != 0
    ensures (ValueByTouchPos(c, f, v, k)
      - c.steps.Of(f) * (v / c.steps.Of(f) + (if k > 0 then k else k + 1))) % c.Period(f) == 0
  {
    SnapLandsOnStep(v, c.steps.Of(f), k);
  }

  /** A swipe of one step either way lands where the matching spinner
      button does, and a swipe of no steps where a bare normalisation
      does. */
  lemma SwipeMatchesButtons(c: Config, f: Field, v: int)
    requires c.limits.Valid() && c.CanStep(f, 1)
    ensures ValueByTouchPos(c, f, v, 1) == NextValueByProp(c, f, v, Some(true))
    ensures ValueByTouchPos(c, f, v, -1) == NextValueByProp(c, f, v, Some(false))
    ensures ValueByTouchPos(c, f, v, 0) == NextValueByProp(c, f, v, None)
  {
  }

  /** Without rounding, the up button undoes the down button and the other
      way round, on every in-range value. */
  lemma ButtonsAreInverse(c: Config, f: Field, v: int, up: bool)
    requires c.limits.Valid() && !c.roundToStep
    requires c.InRange(f, v)
    ensures NextValueByProp(c, f, NextValueByProp(c, f, v, Some(up)), Some(!up)) == v
  {
    var p := c.Period(f);
    var s := if up then c.steps.Of(f) else -c.steps.Of(f);
    var a := NextValueByProp(c, f, v, Some(up));
    var b := NextValueByProp(c, f, a, Some(!up));
    assert (a - v - s) % p == 0;
    assert (b - a + s) % p == 0;
    MultipleSum(a - v - s, b - a + s, p);
    assert b - v == (a - v - s) + (b - a + s);
    WindowUnique(b, v, if c.MeridianHour(f) then 1 else 0, p);
  }

  /** Without rounding, a swipe of `k1` steps followed by one of `k2` steps
      from where it ended lands where one swipe of `k1 + k2` steps does. */
  lemma SwipesCompose(c: Config, f: Field, v: int, k1: int, k2: int)
    requires c.limits.Valid() && !c.roundToStep
    ensures ValueByTouchPos(c, f, ValueByTouchPos(c, f, v, k1), k2) == ValueByTouchPos(c, f, v, k1 + k2)
  {
    var p := c.Period(f);
    var s := c.steps.Of(f);
    var a := ValueByTouchPos(c, f, v, k1);
    var b := ValueByTouchPos(c, f, a, k2);
    var d := ValueByTouchPos(c, f, v, k1 + k2);
    assert s * (k1 + k2) == s * k1 + s * k2;
    MultipleSum(a - v - s * k1, b - a - s * k2, p);
    MultipleNeg(d - v - s * (k1 + k2), p);
    MultipleSum(b - v - s * (k1 + k2), -(d - v - s * (k1 + k2)), p);
    assert b - d == (b - v - s * (k1 + k2)) + -(d - v - s * (k1 + k2));
    WindowUnique(b, d, if c.MeridianHour(f) then 1 else 0, p);
  }
}

=== FILE: time_fields.dfy ===
/** The vocabulary of the time picker: which field is being edited, the
    meridian, the per-field step sizes and range limits, and the settings
    the component reads when it steps or normalises a value.

    The component selects a field's step and limits by building property
    names from a string (`step` + `Hour`, `min` + `Hour`, ...); here the
    field is a datatype and the selection is a table.
 */
module TimeFields {

  datatype Option<T> = None | Some(value: T)

  datatype Field = Hour | Minute | Second

  datatype Meridian = AM | PM

  /** The range limits of every field. `min*` is the smallest value and
      `max*` the period the value wraps at; `meridian` is the number of
      hours in one half of the day. */
  datatype Limits = Limits(
    minHour: int, maxHour: int,
    minMinute: int, maxMinute: int,
    minSecond: int, maxSecond: int,
    meridian: int)
  {
    /** Every field starts at 0 and has a positive period. */
    predicate Valid() {
      && minHour == 0 && minMinute == 0 && minSecond == 0
      && maxHour > 0 && maxMinute > 0 && maxSecond > 0
      && meridian > 0
    }

    function Min(f: Field): int {
      match f
      case Hour => minHour
      case Minute => minMinute
      case Second => minSecond
    }

    function Max(f: Field): int {
      match f
      case Hour => maxHour
      case Minute => maxMinute
      case Second => maxSecond
    }
  }

  /** The configured step of each field. */
  datatype Steps = Steps(hour: int, minute: int, second: int)
  {
    function Of(f: Field): int {
      match f
      case Hour => hour
      case Minute => minute
      case Second => second
    }
  }

  /** The component's inputs that the stepping engine reads. */
  datatype Config = Config(
    steps: Steps,
    roundToStep: bool,
    enableMeridian: bool,
    limits: Limits)
  {
    /** The hour shown on a 12-hour dial. */
    predicate MeridianHour(f: Field) {
      f == Hour && enableMeridian
    }

    /** The modulus a value of `f` wraps at. */
    function Period(f: Field): int {
      if MeridianHour(f) then limits.meridian else limits.Max(f)
    }

    /** The values a field may show: `[1, meridian]` for a 12-hour hour,
        `[min, max)` for everything else. */
    predicate InRange(f: Field, v: int) {
      if MeridianHour(f) then 1 <= v <= Period(f)
      else limits.Min(f) <= v < Period(f)
    }

    /** Stepping `f` a non-zero number of times with rounding on divides
        by its step, so that step must not be zero. */
    predicate CanStep(f: Field, stepCount: int) {
      roundToStep && stepCount != 0 ==> steps.Of(f) != 0
    }
  }
}

=== FILE: timepicker.dfy ===
/** The picker's state as the engine sees it: the three fields of the form
    and the meridian shown beside them, the date model's hour, minute and
    second, and the user actions that move between them (spinner buttons,
    the meridian toggle, a touch swipe).
 */
module Timepicker {
  import opened TimeFields
  import opened Stepper
  import opened MeridianHours

  /** The values in the form's hour, minute and second controls and the
      meridian shown. */
  datatype TimeForm = TimeForm(hour: int, minute: int, second: int, meridian: Meridian)

  /** The hour, minute and second of the date model, as the date adapter
      reads and writes them. */
  datatype Clock = Clock(hour: int, minute: int, second: int)

  function Get(form: TimeForm, f: Field): int {
    match f
    case Hour => form.hour
    case Minute => form.minute
    case Second => form.second
  }

  /** The form with field `f` set to `v` and nothing else touched. */
  function Set(form: TimeForm, f: Field, v: int): (r: TimeForm)
    ensures Get(r, f) == v
    ensures forall g: Field :: g != f ==> Get(r, g) == Get(form, g)
    ensures r.meridian == form.meridian
  {
    match f
    case Hour => form.(hour := v)
    case Minute => form.(minute := v)
    case Second => form.(second := v)
  }

  /** Every field shows a value of its range. */
  predicate FormInRange(c: Config, form: TimeForm) {
    forall f: Field :: c.InRange(f, Get(form, f))
  }

  /** A model time of day the 12-hour dial can show. */
  predicate ClockOfDay(c: Config, clock: Clock) {
    c.enableMeridian ==> 0 <= clock.hour < 2 * c.limits.meridian
  }

  /** `_updateHourMinuteSecond`: the date model read into the form. The
      meridian is re-derived on the 12-hour dial and stays `shown`
      otherwise. */
  function Load(c: Config, clock: Clock, shown: Meridian): (form: TimeForm)
    requires c.limits.Valid()
    ensures form.minute == clock.minute && form.second == clock.second
    ensures !c.enableMeridian ==> form.hour == clock.hour && form.meridian == shown
    ensures c.enableMeridian && ClockOfDay(c, clock) ==> c.InRange(Hour, form.hour)
    ensures c.enableMeridian ==> (form.meridian == AM <==> clock.hour < c.limits.meridian)
    ensures c.enableMeridian ==> (form.hour - clock.hour) % c.limits.meridian == 0
  {
    var d := ToDisplay(clock.hour, c.limits.meridian, c.enableMeridian, shown);
    TimeForm(d.hour, clock.minute, clock.second, d.meridian)
  }

  /** `_updateModel`: the form written to the date model. */
  function Commit(c: Config, form: TimeForm): (clock: Clock)
    requires c.limits.Valid()
    ensures clock.minute == form.minute && clock.second == form.second
    ensures !c.enableMeridian ==> clock.hour == form.hour
    ensures FormInRange(c, form) ==> ClockOfDay(c, clock)
    ensures c.enableMeridian ==> (clock.hour - form.hour) % c.limits.meridian == 0
    ensures c.enableMeridian && c.InRange(Hour, form.hour) ==>
      (form.meridian == AM <==> 0 <= clock.hour < c.limits.meridian)
  {
    assert FormInRange(c, form) ==> c.InRange(Hour, Get(form, Hour));
    Clock(ToModel(HourDisplay(form.hour, form.meridian), c.limits.meridian, c.enableMeridian),
          form.minute, form.second)
  }

  /** Loading a model time of day and committing the form again writes
      back the same time. */
  lemma CommitLoadRoundTrip(c: Config, clock: Clock, shown: Meridian)
    requires c.limits.Valid() && ClockOfDay(c, clock)
    ensures Commit(c, Load(c, clock, shown)) == clock
  {
    if c.enableMeridian {
      ModelDisplayRoundTrip(clock.hour, c.limits.meridian, shown);
    }
  }

  /** Committing a form whose hour is on the dial and loading the model
      again gives back the same form, meridian included. */
  lemma LoadCommitRoundTrip(c: Config, form: TimeForm)
    requires c.limits.Valid()
    requires c.enableMeridian ==> c.InRange(Hour, form.hour)
    ensures Load(c, Commit(c, form), form.meridian) == form
  {
    if c.enableMeridian {
      DisplayModelRoundTrip(HourDisplay(form.hour, form.meridian), c.limits.meridian, form.meridian);
    }
  }

  /** The component's state: the form and the date model it writes to. */
  datatype Picker = Picker(form: TimeForm, model: Clock)

  /** `_changeTime`: field `f` of the form is set to `v` and the whole form
      is written to the date model straight away. */
  function ChangeTime(c: Config, p: Picker, f: Field, v: int): (r: Picker)
    requires c.limits.Valid()
    ensures Get(r.form, f) == v
    ensures forall g: Field :: g != f ==> Get(r.form, g) == Get(p.form, g)
    ensures r.form.meridian == p.form.meridian
    ensures r.model == Commit(c, r.form)
  {
    var form := Set(p.form, f, v);
    Picker(form, Commit(c, form))
  }

  /** `change(prop, up)`: a spinner button, or with `up == None` a bare
      normalisation, applied to field `f` and committed. Only that field
      changes, it ends in range, and the date model receives the new
      form. */
  function Change(c: Config, p: Picker, f: Field, up: Option<bool>): (r: Picker)
    requires c.limits.Valid()
    requires up.Some? ==> c.CanStep(f, 1)
    ensures c.InRange(f, Get(r.form, f))
    ensures forall g: Field :: g != f ==> Get(r.form, g) == Get(p.form, g)
    ensures r.form.meridian == p.form.meridian
    ensures up.None? && c.InRange(f, Get(p.form, f)) ==> r.form == p.form
    ensures Get(r.form, f) == NextValueByProp(c, f, Get(p.form, f), up)
    ensures up.Some? && !c.roundToStep ==>
      (Get(r.form, f) - Get(p.form, f) - (if up.value then c.steps.Of(f) else -c.steps.Of(f))) % c.Period(f) == 0
    ensures r.model == Commit(c, r.form)
  {
    ChangeTime(c, p, f, NextValueByProp(c, f, Get(p.form, f), up))
  }

  /** Without rounding, the up button undoes the down button and the other
      way round on a form whose field is in range, and the date model then
      holds that form's time again. */
  lemma ChangeButtonsAreInverse(c: Config, p: Picker, f: Field, up: bool)
    requires c.limits.Valid() && !c.roundToStep
    requires c.InRange(f, Get(p.form, f))
    ensures Change(c, Change(c, p, f, Some(up)), f, Some(!up)).form == p.form
    ensures Change(c, Change(c, p, f, Some(up)), f, Some(!up)).model == Commit(c, p.form)
  {
    var q := Change(c, p, f, Some(up));
    ButtonsAreInverse(c, f, Get(p.form, f), up);
    var r := Change(c, q, f, Some(!up));
    assert Get(r.form, f) == Get(p.form, f);
    assert r.form == p.form by {
      match f
      case Hour =>
      case Minute =>
      case Second =>
    }
  }

  /** `toggleMeridian`: AM and PM swap, the hour field is normalised, and
      the form is committed. */
  function ToggleMeridian(c: Config, p: Picker): (r: Picker)
    requires c.limits.Valid()
    ensures r.form.meridian != p.form.meridian
    ensures c.InRange(Hour, r.form.hour)
    ensures c.InRange(Hour, p.form.hour) ==> r.form.hour == p.form.hour
    ensures r.form.minute == p.form.minute && r.form.second == p.form.second
    ensures r.model == Commit(c, r.form)
  {
    Change(c, p.(form := p.form.(meridian := Flip(p.form.meridian))), Hour, None)
  }

  /** Toggling twice restores the meridian and leaves an in-range form as
      it was; the date model then holds that form's time. */
  lemma ToggleTwice(c: Config, p: Picker)
    requires c.limits.Valid() && c.InRange(Hour, p.form.hour)
    ensures ToggleMeridian(c, ToggleMeridian(c, p)).form == p.form
    ensures ToggleMeridian(c, ToggleMeridian(c, p)).model == Commit(c, p.form)
  {
  }

  /** On the 12-hour dial a toggle moves the hour written to the date
      model by half a day, around the clock. */
  lemma ToggleMovesHalfADay(c: Config, p: Picker)
    requires c.limits.Valid() && c.enableMeridian && c.InRange(Hour, p.form.hour)
    ensures ToggleMeridian(c, p).model.hour
      == (Commit(c, p.form).hour + c.limits.meridian) % (2 * c.limits.meridian)
  {
    FlipMovesHalfADay(HourDisplay(p.form.hour, p.form.meridian), c.limits.meridian);
  }

  /** The swipe sensitivity in CSS pixels per step, held to `[5, 50]`. */
  function ClampSensitivity(s: int): (r: int)
    ensures 5 <= r <= 50
    ensures 5 <= s <= 50 ==> r == s
    ensures s < 5 ==> r == 5
    ensures s > 50 ==> r == 50
  {
    var atLeast := if s > 5 then s else 5;
    if atLeast < 50 then atLeast else 50
  }

  /** `inputTouchStart` followed by its move listener: a touch with
      `touchCount` fingers on field `f`, then one move sample per element
      of `moves`, each already converted to a whole number of steps. Only a
      single-finger touch is followed; every sample is measured from the
      value at touch start and committed to the date model, so the last
      sample decides both the field and the model. */
  method TouchSwipe(c: Config, p: Picker, f: Field, touchCount: nat, moves: seq<int>)
    returns (r: Picker)
    requires c.limits.Valid()
    requires forall i :: 0 <= i < |moves| ==> c.CanStep(f, moves[i])
    ensures touchCount != 1 || |moves| == 0 ==> r == p
    ensures touchCount == 1 && |moves| > 0 ==>
      && r.form == Set(p.form, f, ValueByTouchPos(c, f, Get(p.form, f), moves[|moves| - 1]))
      && r.model == Commit(c, r.form)
  {
    r := p;
    if touchCount == 1 {
      var initial := Get(p.form, f);
      var i := 0;
      while i < |moves|
        invariant 0 <= i <= |moves|
        invariant i == 0 ==> r == p
        invariant i > 0 ==> r == ChangeTime(c, p, f, ValueByTouchPos(c, f, initial, moves[i - 1]))
      {
        r := ChangeTime(c, r, f, ValueByTouchPos(c, f, initial, moves[i]));
        i := i + 1;
      }
    }
  }
}
